=== FILE: README.md ===
# ScaneToOrder order-taking core, modelled in Dafny

This project models the order-taking logic of the ScaneToOrder QR
table-ordering app. The model is written as pure functions over immutable
datatypes. It covers these parts:

- **Cart aggregate** (`useCart`). A list of cart lines. Lines can be appended,
  removed by line id, have their quantity changed with a floor of 1, or be
  cleared. `totalItems` and `totalPrice` are derived from the lines, and
  loading falls back to an empty cart.
- **Order submission** (`usePlaceOrder`). The mutation inserts the order row
  as `pending` and then one `order_items` row per cart line. After that it
  posts a best-effort notification.
- **Checkout** (`handlePlaceOrder` on the cart page). It looks up the table,
  guards the call, clears the cart on success and navigates to the order page.
- **Status write** (`useUpdateOrderStatus`). An unguarded overwrite of an
  order's status and update time.
- **Admin order board**. The active/completed/all filter, the status buttons
  offered for each status, and what pressing one of them writes.
- **Menu page**. The category filter, the add button gated on availability,
  and the floating cart button.
- **Record shapes and validators**. The `OrderStatus` union and the zod
  schemas `categorySchema` and `menuItemSchema`.

Conventions:

- Money is in integer cents.
- Ids and timestamps are opaque strings.
- Every outcome of I/O is an input: the stored cart string, the JSON parser,
  the generated line id, the insert results, the generated order id, whether
  the notification was delivered, and the current time.

Modules, one per source file:

- `Types` and `Schemas` (src/types/index.ts)
- `Cart` (src/hooks/useCart.ts)
- `Orders` (src/hooks/useOrders.ts)
- `OrderBoard` (src/pages/Admin/OrderList.tsx)
- `Checkout` (src/pages/CartPage.tsx)
- `Menu` (src/pages/MenuPage.tsx)

Two helper modules support them. `Common` holds `Option`, `Result` and
`Max`. `Seqs` holds `Array.prototype.filter` and `reduce` as `Filter` and
`FoldSum`, a reference `Sum`, and the lemmas that connect them.

## Where the code departs from what it promises (the model follows the code)

- **Illegal status transitions.** The board only offers forward steps and
  cancel (src/pages/Admin/OrderList.tsx:136-167), but the write behind them,
  src/hooks/useOrders.ts:147-151, performs no transition check.
  `Orders.UpdateOrderStatus` is an unguarded overwrite, and
  `Orders.UpdateIgnoresCurrentStatus` proves it accepts, for example,
  `completed` → `preparing`.
- **Lifecycle properties.** These are stated about the relation of buttons
  the board offers (`OrderBoard.Offers`), not about the write.
- **Stale board copy.** The board picks its buttons from its own possibly
  stale copy of an order. `OrderBoard.StaleViewCancelsReadyOrder` shows that
  a `ready` order can then be overwritten with `cancelled`.
- **Cart quantity ≥ 1.** `updateQuantity` floors quantities at 1
  (src/hooks/useCart.ts:39), but `addToCart` (src/hooks/useCart.ts:21-28)
  accepts any quantity and loading trusts the stored data. The model proves
  the floor only under conditions: `Cart.ApplyAllKeepsQuantitiesPositive`
  needs every add to use a quantity of at least 1, and the menu page always
  adds 1.
- **Order total.** `usePlaceOrder` stores whatever `totalAmount` it is given
  (src/hooks/useOrders.ts:22-31); nothing ties it to the items it inserts.
  `Orders.PlacedItemsMatchTotal` shows that the sum matches exactly when the
  caller passes the cart's total price. `Checkout.PlacedOrderMatchesItems`
  shows that the cart page always does.
- **Unique line ids.** src/types/index.ts:20 comments the cart-line id as
  unique, but src/hooks/useCart.ts:24 draws it from `Math.random` with no
  check. The model takes it as an input and does not claim uniqueness.
  `Cart.RemoveUndoesAdd` assumes freshness explicitly.
- **The `all` category.** The menu's `all` is a sentinel string. A category
  whose id is literally `all` would select every item (`Menu.FilterMenu`).

## Model

| member | source | states |
|---|---|---|
| Types.ParseStatus | src/types/index.ts:25 | a stored status string is accepted exactly when it is one of the five names pending, preparing, ready, completed, cancelled, and then names the status it yields |
| Types.StatusNameRoundTrip | src/types/index.ts:25 | every status reads back from its stored name, and distinct statuses have distinct names |
| Schemas.ParseCategory | src/types/index.ts:51-54 | a category is accepted iff its name is non-empty and its sort order is an integer ≥ 0; on rejection each failed check (name, non-integer, negative) is reported exactly when it fails |
| Schemas.ParseCategoryIdempotent | src/types/index.ts:51-54 | an accepted category validates again to the same result |
| Schemas.ParseMenuItem | src/types/index.ts:56-63 | a menu item is accepted iff name and category are non-empty and price ≥ 0; description and image stay optional; availability defaults to true when absent; each failed check is reported exactly when it fails |
| Schemas.ParseMenuItemIdempotent | src/types/index.ts:56-63 | an accepted menu item validates again to the same result |
| Cart.TotalItems | src/hooks/useCart.ts:49 | the left-fold reduce equals the reference sum of line quantities |
| Cart.TotalPrice | src/hooks/useCart.ts:50 | the left-fold reduce equals the reference sum of price × quantity |
| Cart.LoadCart | src/hooks/useCart.ts:5-15 | the stored value's parse when it parses; the empty cart when the key is absent, empty or unparsable |
| Cart.LoadAfterSave | src/hooks/useCart.ts:5-19 | a cart saved by a serializer that its parser reads back is reloaded unchanged |
| Cart.AddToCart | src/hooks/useCart.ts:21-29 | exactly one line is appended at the end, even for an item already in the cart; earlier lines are unchanged; the new line carries the item, the given id, quantity and notes |
| Cart.AddOne | src/hooks/useCart.ts:21 | the default call appends one line for the item, under the given line id, with quantity 1 and notes "" |
| Cart.AddToCartTotals | src/hooks/useCart.ts:21-50 | an add raises totalItems by its quantity and totalPrice by price × quantity |
| Cart.RemoveFromCart | src/hooks/useCart.ts:31-33 | keeps exactly the lines whose id differs from x, and the kept and dropped lines together are the cart as a multiset; a no-op when no line carries x |
| Cart.RemoveFromCartKeepsOrder | src/hooks/useCart.ts:31-33 | the kept lines stay in their original order: removing from a concatenation removes from each part in place |
| Cart.RemoveFromCartTotals | src/hooks/useCart.ts:31-50 | a remove lowers the totals by exactly the removed lines' quantities and line totals |
| Cart.RemoveUndoesAdd | src/hooks/useCart.ts:21-33 | removing the line just added under an unused id gives back the previous cart |
| Cart.UpdateQuantity | src/hooks/useCart.ts:35-45 | length is kept; each matching line gets max(1, q + delta), so its quantity is ≥ 1 for any delta, with its other fields kept; non-matching lines are unchanged |
| Cart.UpdateQuantityAbsent | src/hooks/useCart.ts:35-45 | an update for an id no line carries leaves the cart unchanged |
| Cart.UpdateQuantityInverse | src/hooks/useCart.ts:35-45 | +1 followed by -1 restores a cart whose quantities are all ≥ 1 |
| Cart.UpdateQuantityCompose | src/hooks/useCart.ts:35-45 | two updates compose into one with the summed delta when the first does not hit the floor |
| Cart.UpdateQuantityTotals | src/hooks/useCart.ts:35-50 | totalItems moves by at least delta per matching line, and by exactly that when no line hits the floor |
| Cart.ClearCart | src/hooks/useCart.ts:47-50 | the cleared cart has no lines and both totals are 0 |
| Cart.ApplyAllKeepsQuantitiesPositive | src/hooks/useCart.ts:21-47 | any sequence of add/remove/update/clear whose adds use quantity ≥ 1 keeps every quantity ≥ 1 |
| Cart.TotalItemsAtLeastLines | src/hooks/useCart.ts:49 | with all quantities ≥ 1, totalItems ≥ number of lines, so it is positive iff the cart is non-empty |
| Orders.OrderItemsFor | src/hooks/useOrders.ts:36-42 | one order item per cart line in cart order, with order id, menu item id, quantity, unit price and notes taken from the line |
| Orders.OrderItemsTotal | src/hooks/useOrders.ts:36-42 | the items' unit price × quantity adds up to the cart's total price |
| Orders.NotifyItemsFor | src/hooks/useOrders.ts:59-64 | one notification item per cart line with its name, quantity, price and notes |
| Orders.PlaceOrder | src/hooks/useOrders.ts:8-74 | a failed order insert fails with no writes; otherwise the order row is appended as pending with the given table, total and note; a failed item insert fails but leaves that row with no items; on success the items are appended and the order returned; the notification carries order id, table id, total, note and mirrored items; a delivery failure only logs a warning |
| Orders.NotifyFailureSwallowed | src/hooks/useOrders.ts:49-73 | notification delivery does not change the result, the backend or the posted body |
| Orders.ItemsFailureLeavesOrphan | src/hooks/useOrders.ts:22-46 | after a failed item insert the call fails, yet a pending order with the new id remains and no item refers to it |
| Orders.PlacedItemsMatchTotal | src/hooks/useOrders.ts:22-42 | after success the inserted items add up to the order's total exactly when the requested total is the cart's total price |
| Orders.WriteStatus | src/hooks/useOrders.ts:147-151 | every row with the id gets the requested status and timestamp whatever its current status, with its other fields kept; every other row is unchanged |
| Orders.UpdateOrderStatus | src/hooks/useOrders.ts:144-160 | succeeds iff the backend write succeeds, then writes the status as above and leaves the items alone |
| Orders.UpdateIgnoresCurrentStatus | src/hooks/useOrders.ts:147-153 | any target status is written over any current status, terminal ones included |
| Orders.WriteStatusIdempotent | src/hooks/useOrders.ts:147-151 | writing the same status and time twice equals writing it once |
| OrderBoard.FilterOrders | src/pages/Admin/OrderList.tsx:21-25 | active keeps exactly the orders not completed or cancelled; completed keeps exactly the completed or cancelled ones; all returns the list unchanged |
| OrderBoard.ActiveCompletedPartition | src/pages/Admin/OrderList.tsx:21-25 | the active and completed views together hold every order exactly once |
| OrderBoard.FilterOrdersKeepsOrder | src/pages/Admin/OrderList.tsx:21-25 | each view preserves relative order (filtering distributes over concatenation) |
| OrderBoard.OfferedActions | src/pages/Admin/OrderList.tsx:136-167 | cancel is offered iff the status is pending or preparing; nothing is offered iff the status is completed or cancelled; every offered target is either cancel or one step forward |
| OrderBoard.OfferedByStatus | src/pages/Admin/OrderList.tsx:136-167 | pending offers exactly {preparing, cancelled}, preparing exactly {ready, cancelled}, ready exactly {completed}, completed and cancelled nothing |
| OrderBoard.OffersRaisesRank | src/pages/Admin/OrderList.tsx:136-167 | every offered step moves strictly forward in the lifecycle |
| OrderBoard.OfferedRunClimbs | src/pages/Admin/OrderList.tsx:136-167 | along any chain of offered steps the lifecycle rank rises by at least one per step |
| OrderBoard.OfferedRunIsAcyclic | src/pages/Admin/OrderList.tsx:136-167 | a chain of offered steps never revisits a status, has at most four statuses, and ends at its first terminal status |
| OrderBoard.RunFromPending | src/pages/Admin/OrderList.tsx:136-167 | every status is reachable from pending by offered steps |
| OrderBoard.PressAction | src/pages/Admin/OrderList.tsx:136-167 | a button exists iff the shown status offers the target, and pressing it performs the unguarded status write on the shown order's id |
| OrderBoard.PressFollowsLifecycle | src/pages/Admin/OrderList.tsx:136-167 | when the board's copy is current, a press moves the order along the offered relation |
| OrderBoard.StaleViewCancelsReadyOrder | src/pages/Admin/OrderList.tsx:160-167 | with a stale copy showing pending, the cancel button overwrites a ready order with cancelled, which is not an offered step |
| Checkout.FirstMatchFrom | src/pages/CartPage.tsx:19 | the index of the first table whose number or id equals the route parameter, or none when no table matches |
| Checkout.FindTable | src/pages/CartPage.tsx:19 | the first matching table; nothing while tables are not loaded or when none matches |
| Checkout.OrderPath | src/pages/CartPage.tsx:41 | the path is /table/, the route id, /order/, the order id, recoverable by position |
| Checkout.HandlePlaceOrder | src/pages/CartPage.tsx:21-46 | with no table the call is rejected with no write and no cart change; with an empty cart (checked second) likewise; the order is placed with the table's id, the cart's total price and the note; the call reports failure exactly when a resolved table and non-empty cart meet a failed insert; on success earlier orders are unchanged, the new order row carries the id the page navigates to, the inserted items are exactly the cart's lines, the cart is cleared and the page navigates to the order; once the mutation runs the backend is exactly what it left, including an orphan order when only the item insert failed; on failure the cart is kept and nothing navigates |
| Checkout.PlacedOrderMatchesItems | src/pages/CartPage.tsx:31-41 | an order placed from the cart page has one item per line, and its items add up to its total |
| Checkout.TwoLineExample | src/pages/CartPage.tsx:31-41 | lines of 10.00 × 2 and 5.50 × 1 give an order of 25.50 with unit prices 10.00 and 5.50 |
| Menu.FilterMenu | src/pages/MenuPage.tsx:34-36 | "all" yields every item unchanged; another category yields exactly the items of that category, each as often as it occurs in the menu, sold-out ones included |
| Menu.FilterMenuKeepsOrder | src/pages/MenuPage.tsx:34-36 | the category filter preserves menu order |
| Menu.ClickAdd | src/pages/MenuPage.tsx:38-41 | a disabled (sold-out) button leaves the cart unchanged; an enabled one appends the item under the generated line id with quantity 1 and notes ""; all-positive quantities stay positive |
| Menu.MenuAddsOnlyAvailable | src/pages/MenuPage.tsx:113-122 | any run of add-button clicks adds only available items |
| Menu.CartButtonVisibleIffNonEmpty | src/pages/MenuPage.tsx:131 | with all quantities ≥ 1 the cart button is shown exactly when the cart has a line |

## Left out

- **Supabase and realtime.** Supabase reads, the realtime channels of the admin
  list and of the order-status page, and react-query caching and invalidation
  are left out. They are I/O and library plumbing. Insert outcomes, the
  generated id and the creation time are inputs instead.
- **`useOrderDetails` and `useAdminOrders`.** Both are joined reads. The
  admin list's `created_at` descending order comes from a database query, not
  client logic.
- **The notification transport.** The `fetch`, its URL and `JSON.stringify`
  are left out. Only whether `fetch` rejected (a network failure) is an
  input, and it decides only the logged warning. An HTTP error response
  resolves `fetch`, so it counts as delivered and logs nothing.
- **Local storage.** `localStorage` and JSON encoding are left out. Load takes
  the stored string and a parser. Saving after every mutation is the
  serializer in `Cart.LoadAfterSave`.
- Cart.LoadCart: assumes a successful parse yields a list of cart lines. In
  the code, `JSON.parse` may return any JSON value (a number, say), and the
  hook would then hold it as the cart.
- **Statuses outside the union.** Stored statuses are cast, never checked
  (src/hooks/useOrders.ts:97, 139), and the status colour has a fallback for
  other strings. The model's `OrderStatus` holds only the five values, so a
  stored status outside them is not modelled; the board would list such an
  order as active with no buttons.
- **Random line ids.** `Math.random` line ids are inputs. Nothing is claimed
  about their uniqueness.
- **Money arithmetic.** Floating-point prices, `toFixed(2)` and `parseFloat`
  are left out. Money is integer cents, so price × quantity is exact and
  rounding is not modelled.
- **Runtime type checks.** zod also checks value types (a number where a
  string is expected). The model's typed inputs cannot hold such values.
  Non-finite numbers are not modelled either.
- **Timestamps.** Timestamps are opaque strings. `formatDistanceToNow` is
  display.
- **UI state.** Loading spinners, empty-state screens, status colours and
  toasts other than those of `handlePlaceOrder` are display only. So is the
  disabled state of "Place Order" while a submission is pending or tables
  are not loaded.
- **Other files.** The order-status page, menu management, the QR page,
  routing, the auth gate and the menu/table fetch hooks are UI, form state,
  storage upload, rendering or thin CRUD wrappers.
- **Concurrency.** Concurrent submissions and writes are left out. The model
  is sequential. The stale-copy race is shown only as a single interleaving
  in `OrderBoard.StaleViewCancelsReadyOrder`.

=== FILE: cart.dfy ===
/** The cart aggregate of `useCart` (src/hooks/useCart.ts): a list of cart
    lines with append, remove by line id, bounded quantity update and clear,
    and the totals derived from the lines. The fresh line id, the stored
    string and the JSON parser are inputs. */
module Cart {
  import opened Common
  import opened Types
  import Seqs

  function Quantity(l: CartItem): int { l.quantity }

  function LineTotal(l: CartItem): int { l.item.price * l.quantity }

  /** `totalItems`: the reduce over the lines adding up their quantities. */
  function TotalItems(cart: seq<CartItem>): (n: int)
    ensures n == Seqs.Sum(Quantity, cart)
  {
    Seqs.FoldSumIsSum(Quantity, 0, cart);
    Seqs.FoldSum(Quantity, 0, cart)
  }

  /** `totalPrice`: the reduce over the lines adding up price times quantity. */
  function TotalPrice(cart: seq<CartItem>): (p: int)
    ensures p == Seqs.Sum(LineTotal, cart)
  {
    Seqs.FoldSumIsSum(LineTotal, 0, cart);
    Seqs.FoldSum(LineTotal, 0, cart)
  }

  /** What JSON.parse makes of the stored string. */
  datatype ParseResult = Parsed(lines: seq<CartItem>) | Unparsable

  /** The initial cart: the parsed stored value, or the empty cart when the
      key is absent, holds the empty string, or does not parse. */
  function LoadCart(saved: Option<string>, parse: string -> ParseResult): (cart: seq<CartItem>)
    ensures saved.None? || saved == Some("") ==> cart == []
    ensures saved.Some? && saved.value != "" && parse(saved.value).Unparsable? ==> cart == []
    ensures saved.Some? && saved.value != "" && parse(saved.value).Parsed? ==>
              cart == parse(saved.value).lines
  {
    match saved
    case None => []
    case Some(text) =>
      if text == "" then []
      else match parse(text)
        case Parsed(lines) => lines
        case Unparsable => []
  }

  /** Persistence round trip: when the serializer writes a non-empty string
      that the parser reads back as the same lines, reloading reproduces the
      cart. */
  lemma LoadAfterSave(cart: seq<CartItem>, serialize: seq<CartItem> -> string, parse: string -> ParseResult)
    requires serialize(cart) != ""
    requires parse(serialize(cart)) == Parsed(cart)
    ensures LoadCart(Some(serialize(cart)), parse) == cart
  {
  }

  /** `addToCart(item, quantity, notes)`: a new line for the item with the
      given line id, appended even when the item is already in the cart. */
  function AddToCart(cart: seq<CartItem>, item: MenuItem, freshId: string, quantity: int, notes: string)
    : (r: seq<CartItem>)
    ensures |r| == |cart| + 1
    ensures r[..|cart|] == cart
    ensures r[|cart|].item == item && r[|cart|].cartItemId == freshId
    ensures r[|cart|].quantity == quantity && r[|cart|].notes == Some(notes)
  {
    cart + [CartItem(item, freshId, quantity, Some(notes))]
  }

  /** `addToCart(item)` with its default arguments: quantity 1, empty notes. */
  function AddOne(cart: seq<CartItem>, item: MenuItem, freshId: string): (r: seq<CartItem>)
    ensures |r| == |cart| + 1 && r[..|cart|] == cart
    ensures r[|cart|].quantity == 1 && r[|cart|].notes == Some("")
    ensures r[|cart|].item == item && r[|cart|].cartItemId == freshId
  {
    AddToCart(cart, item, freshId, 1, "")
  }

  /** The predicate `line.cartItemId !== x`. */
  function WithoutId(x: string): CartItem -> bool {
    (l: CartItem) => l.cartItemId != x
  }

  /** The predicate `line.cartItemId === x`. */
  function WithId(x: string): CartItem -> bool {
    (l: CartItem) => l.cartItemId == x
  }

  /** The lines carrying line id `x`. */
  function LinesWithId(cart: seq<CartItem>, x: string): seq<CartItem> {
    Seqs.Filter(WithId(x), cart)
  }

  /** `removeFromCart(x)`: keeps exactly the lines whose id is not `x`; the
      kept lines and the dropped ones together are the cart. */
  function RemoveFromCart(cart: seq<CartItem>, x: string): (r: seq<CartItem>)
    ensures forall i :: 0 <= i < |r| ==> r[i] in cart && r[i].cartItemId != x
    ensures forall i :: 0 <= i < |cart| && cart[i].cartItemId != x ==> cart[i] in r
    ensures |r| + |LinesWithId(cart, x)| == |cart|
    ensures multiset(r) + multiset(LinesWithId(cart, x)) == multiset(cart)
    ensures (forall i :: 0 <= i < |cart| ==> cart[i].cartItemId != x) ==> r == cart
  {
    Seqs.FilterComplement(WithoutId(x), WithId(x), cart);
    if forall i :: 0 <= i < |cart| ==> cart[i].cartItemId != x then
      Seqs.FilterKeepsAll(WithoutId(x), cart);
      Seqs.Filter(WithoutId(x), cart)
    else
      Seqs.Filter(WithoutId(x), cart)
  }

  /** Removing keeps the remaining lines in their original order: removing
      from a concatenation removes from each part in place. */
  lemma RemoveFromCartKeepsOrder(a: seq<CartItem>, b: seq<CartItem>, x: string)
    ensures RemoveFromCart(a + b, x) == RemoveFromCart(a, x) + RemoveFromCart(b, x)
  {
    Seqs.FilterConcat(WithoutId(x), a, b);
  }

  /** Removing a line subtracts exactly the quantities and line totals of the
      removed lines from the cart totals. */
  lemma RemoveFromCartTotals(cart: seq<CartItem>, x: string)
    ensures TotalItems(RemoveFromCart(cart, x)) == TotalItems(cart) - Seqs.Sum(Quantity, LinesWithId(cart, x))
    ensures TotalPrice(RemoveFromCart(cart, x)) == TotalPrice(cart) - Seqs.Sum(LineTotal, LinesWithId(cart, x))
  {
    Seqs.SumComplement(Quantity, WithoutId(x), WithId(x), cart);
    Seqs.SumComplement(LineTotal, WithoutId(x), WithId(x), cart);
  }

  /** Removing the line an add just created, under an id no earlier line
      uses, gives back the cart as it was before the add. */
  lemma RemoveUndoesAdd(cart: seq<CartItem>, item: MenuItem, freshId: string, quantity: int, notes: string)
    requires forall i :: 0 <= i < |cart| ==> cart[i].cartItemId != freshId
    ensures RemoveFromCart(AddToCart(cart, item, freshId, quantity, notes), freshId) == cart
  {
    var line := CartItem(item, freshId, quantity, Some(notes));
    Seqs.FilterConcat(WithoutId(freshId), cart, [line]);
    Seqs.FilterKeepsAll(WithoutId(freshId), cart);
    assert Seqs.Filter(WithoutId(freshId), [line]) == [];
  }

  /** Adding a line raises the totals by exactly that line's contribution. */
  lemma AddToCartTotals(cart: seq<CartItem>, item: MenuItem, freshId: string, quantity: int, notes: string)
    ensures TotalItems(AddToCart(cart, item, freshId, quantity, notes)) == TotalItems(cart) + quantity
    ensures TotalPrice(AddToCart(cart, item, freshId, quantity, notes)) == TotalPrice(cart) + item.price * quantity
  {
    var line := CartItem(item, freshId, quantity, Some(notes));
    Seqs.SumConcat(Quantity, cart, [line]);
    Seqs.SumConcat(LineTotal, cart, [line]);
  }

  /** One line after `updateQuantity(x, delta)`. */
  function Bump(l: CartItem, x: string, delta: int): CartItem {
    if l.cartItemId == x then l.(quantity := Max(1, l.quantity + delta)) else l
  }

  /** `updateQuantity(x, delta)`: every line with id `x` gets quantity
      `max(1, quantity + delta)`; every other line is left as it was. */
  function UpdateQuantity(cart: seq<CartItem>, x: string, delta: int): (r: seq<CartItem>)
    ensures |r| == |cart|
    ensures forall i :: 0 <= i < |cart| && cart[i].cartItemId != x ==> r[i] == cart[i]
    ensures forall i :: 0 <= i < |cart| && cart[i].cartItemId == x ==>
              && r[i].quantity >= 1
              && r[i].quantity == Max(1, cart[i].quantity + delta)
              && r[i] == cart[i].(quantity := r[i].quantity)
  {
    if |cart| == 0 then []
    else [Bump(cart[0], x, delta)] + UpdateQuantity(cart[1..], x, delta)
  }

  /** The cart is unchanged when no line carries the id. */
  lemma UpdateQuantityAbsent(cart: seq<CartItem>, x: string, delta: int)
    requires forall i :: 0 <= i < |cart| ==> cart[i].cartItemId != x
    ensures UpdateQuantity(cart, x, delta) == cart
  {
  }

  predicate QuantitiesPositive(cart: seq<CartItem>) {
    forall i :: 0 <= i < |cart| ==> cart[i].quantity >= 1
  }

  /** Incrementing then decrementing a line is the identity on a cart whose
      quantities are all at least 1. */
  lemma UpdateQuantityInverse(cart: seq<CartItem>, x: string)
    requires QuantitiesPositive(cart)
    ensures UpdateQuantity(UpdateQuantity(cart, x, 1), x, -1) == cart
  {
  }

  /** Two updates of the same line compose into one when the first does not
      hit the floor. */
  lemma UpdateQuantityCompose(cart: seq<CartItem>, x: string, d1: int, d2: int)
    requires forall i :: 0 <= i < |cart| && cart[i].cartItemId == x ==> cart[i].quantity + d1 >= 1
    ensures UpdateQuantity(UpdateQuantity(cart, x, d1), x, d2) == UpdateQuantity(cart, x, d1 + d2)
  {
  }

  /** Unfolds an update of a non-empty cart into its first line and the rest. */
  lemma UpdateQuantityUnfold(cart: seq<CartItem>, x: string, delta: int)
    requires |cart| > 0
    ensures Seqs.Sum(Quantity, UpdateQuantity(cart, x, delta))
              == Bump(cart[0], x, delta).quantity + Seqs.Sum(Quantity, UpdateQuantity(cart[1..], x, delta))
    ensures |LinesWithId(cart, x)|
              == (if cart[0].cartItemId == x then 1 else 0) + |LinesWithId(cart[1..], x)|
  {
  }

  /** The arithmetic of one induction step of the update-total lemmas. */
  lemma UpdateStepArith(q: int, q': int, rest: int, rest': int, k: int, m: int, delta: int)
    requires m == 0 || m == 1
    requires m == 0 ==> q' == q
    requires m == 1 ==> q' == Max(1, q + delta)
    requires rest' >= rest + delta * k
    ensures q' + rest' >= q + rest + delta * (k + m)
    ensures rest' == rest + delta * k && (m == 1 ==> q + delta >= 1) ==>
              q' + rest' == q + rest + delta * (k + m)
  {
  }

  /** The item-total lower bound of `UpdateQuantityTotals`, on the reference sum. */
  lemma {:induction false} UpdateQuantitySumBound(cart: seq<CartItem>, x: string, delta: int)
    ensures Seqs.Sum(Quantity, UpdateQuantity(cart, x, delta))
              >= Seqs.Sum(Quantity, cart) + delta * |LinesWithId(cart, x)|
  {
    if |cart| > 0 {
      UpdateQuantityUnfold(cart, x, delta);
      UpdateQuantitySumBound(cart[1..], x, delta);
      UpdateStepArith(cart[0].quantity, Bump(cart[0], x, delta).quantity,
                      Seqs.Sum(Quantity, cart[1..]), Seqs.Sum(Quantity, UpdateQuantity(cart[1..], x, delta)),
                      |LinesWithId(cart[1..], x)|, if cart[0].cartItemId == x then 1 else 0, delta);
    }
  }

  /** The exact item total of `UpdateQuantityTotals` when no line hits the floor. */
  lemma {:induction false} UpdateQuantitySumExact(cart: seq<CartItem>, x: string, delta: int)
    requires forall i :: 0 <= i < |cart| && cart[i].cartItemId == x ==> cart[i].quantity + delta >= 1
    ensures Seqs.Sum(Quantity, UpdateQuantity(cart, x, delta))
              == Seqs.Sum(Quantity, cart) + delta * |LinesWithId(cart, x)|
  {
    if |cart| > 0 {
      UpdateQuantityUnfold(cart, x, delta);
      UpdateQuantitySumExact(cart[1..], x, delta);
      UpdateStepArith(cart[0].quantity, Bump(cart[0], x, delta).quantity,
                      Seqs.Sum(Quantity, cart[1..]), Seqs.Sum(Quantity, UpdateQuantity(cart[1..], x, delta)),
                      |LinesWithId(cart[1..], x)|, if cart[0].cartItemId == x then 1 else 0, delta);
    }
  }

  /** An update moves the item total by `delta` per matching line when no
      line hits the floor, and never by less than that. */
  lemma UpdateQuantityTotals(cart: seq<CartItem>, x: string, delta: int)
    ensures TotalItems(UpdateQuantity(cart, x, delta)) >= TotalItems(cart) + delta * |LinesWithId(cart, x)|
    ensures (forall i :: 0 <= i < |cart| && cart[i].cartItemId == x ==> cart[i].quantity + delta >= 1) ==>
              TotalItems(UpdateQuantity(cart, x, delta)) == TotalItems(cart) + delta * |LinesWithId(cart, x)|
  {
    UpdateQuantitySumBound(cart, x, delta);
    if forall i :: 0 <= i < |cart| && cart[i].cartItemId == x ==> cart[i].quantity + delta >= 1 {
      UpdateQuantitySumExact(cart, x, delta);
    }
  }

  /** `clearCart()`: the empty cart, whose totals are both zero. */
  function ClearCart(): (r: seq<CartItem>)
    ensures |r| == 0
    ensures TotalItems(r) == 0 && TotalPrice(r) == 0
  {
    []
  }

  /** The cart mutations the hook exposes, with their I/O inputs resolved. */
  datatype CartOp =
    | Add(item: MenuItem, freshId: string, quantity: int, notes: string)
    | Remove(id: string)
    | Update(id: string, delta: int)
    | Clear

  function Apply(cart: seq<CartItem>, op: CartOp): seq<CartItem> {
    match op
    case Add(item, freshId, quantity, notes) => AddToCart(cart, item, freshId, quantity, notes)
    case Remove(id) => RemoveFromCart(cart, id)
    case Update(id, delta) => UpdateQuantity(cart, id, delta)
    case Clear => ClearCart()
  }

  function ApplyAll(cart: seq<CartItem>, ops: seq<CartOp>): seq<CartItem>
    decreases |ops|
  {
    if |ops| == 0 then cart else ApplyAll(Apply(cart, ops[0]), ops[1..])
  }

  /** Every line has quantity at least 1 after any sequence of mutations
      whose adds use a quantity of at least 1, starting from such a cart. */
  lemma {:induction false} ApplyAllKeepsQuantitiesPositive(cart: seq<CartItem>, ops: seq<CartOp>)
    requires QuantitiesPositive(cart)
    requires forall i :: 0 <= i < |ops| && ops[i].Add? ==> ops[i].quantity >= 1
    ensures QuantitiesPositive(ApplyAll(cart, ops))
    decreases |ops|
  {
    if |ops| > 0 {
      var next := Apply(cart, ops[0]);
      assert QuantitiesPositive(next);
      ApplyAllKeepsQuantitiesPositive(next, ops[1..]);
    }
  }

  /** In a cart whose quantities are all at least 1 there are at least as
      many items as lines, so the item total is positive iff the cart has a
      line. */
  lemma TotalItemsAtLeastLines(cart: seq<CartItem>)
    requires QuantitiesPositive(cart)
    ensures TotalItems(cart) >= |cart|
    ensures TotalItems(cart) > 0 <==> |cart| > 0
  {
    Seqs.SumAtLeastLength(Quantity, cart);
  }
}

=== FILE: checkout.dfy ===
/** Checkout on the cart page (src/pages/CartPage.tsx): resolving the table
    from the route parameter and `handlePlaceOrder`, which guards the
    submission, runs the place-order mutation, and on success clears the
    cart and navigates to the order's status page. */
module Checkout {
  import opened Common
  import opened Types
  import Seqs
  import Cart
  import Orders

  /** `t.table_number === tableId || t.id === tableId`; an absent route
      parameter matches no table. */
  predicate Matches(t: Table, routeId: Option<string>) {
    routeId == Some(t.tableNumber) || routeId == Some(t.id)
  }

  /** The index of the first table at or after `from` that matches. */
  function FirstMatchFrom(tables: seq<Table>, routeId: Option<string>, from: nat): (r: Option<nat>)
    requires from <= |tables|
    ensures r.Some? ==> from <= r.value < |tables| && Matches(tables[r.value], routeId)
    ensures r.Some? ==> forall j :: from <= j < r.value ==> !Matches(tables[j], routeId)
    ensures r.None? ==> forall j :: from <= j < |tables| ==> !Matches(tables[j], routeId)
    decreases |tables| - from
  {
    if from == |tables| then None
    else if Matches(tables[from], routeId) then Some(from)
    else FirstMatchFrom(tables, routeId, from + 1)
  }

  /** `currentTable`: `tables?.find(...)`, undefined while the tables have
      not loaded. */
  function FindTable(tables: Option<seq<Table>>, routeId: Option<string>): (r: Option<Table>)
    ensures tables.None? ==> r.None?
    ensures tables.Some? && r.None? ==> forall j :: 0 <= j < |tables.value| ==> !Matches(tables.value[j], routeId)
    ensures r.Some? ==> tables.Some? && Matches(r.value, routeId)
    ensures r.Some? ==> exists i :: 0 <= i < |tables.value| && tables.value[i] == r.value
                                   && forall j :: 0 <= j < i ==> !Matches(tables.value[j], routeId)
  {
    match tables
    case None => None
    case Some(ts) =>
      match FirstMatchFrom(ts, routeId, 0)
      case None => None
      case Some(i) => Some(ts[i])
  }

  /** The toasts `handlePlaceOrder` raises. */
  datatype Notice = InvalidTable | EmptyCart | OrderPlaced | OrderFailed

  /** `/table/{routeId}/order/{orderId}`. */
  function OrderPath(routeId: string, orderId: string): (path: string)
    ensures |path| == 14 + |routeId| + |orderId|
    ensures path[..7] == "/table/"
    ensures path[7..7 + |routeId|] == routeId
    ensures path[7 + |routeId|..14 + |routeId|] == "/order/"
    ensures path[14 + |routeId|..] == orderId
  {
    "/table/" + routeId + "/order/" + orderId
  }

  /** What a press of "Place Order" leaves behind. */
  datatype CheckoutResult = CheckoutResult(
    cart: seq<CartItem>,
    backend: Orders.Backend,
    notice: Notice,
    navigateTo: Option<string>)

  /** `handlePlaceOrder`: the table check, then the empty-cart check, then
      the mutation with the resolved table's id and the cart's total price. */
  function HandlePlaceOrder(cart: seq<CartItem>, backend: Orders.Backend, tables: Option<seq<Table>>,
                            routeId: Option<string>, customerNote: string,
                            insert: Orders.InsertOutcome, itemsInserted: bool,
                            notifyDelivered: bool, now: string): (r: CheckoutResult)
    ensures FindTable(tables, routeId).None? ==>
              r == CheckoutResult(cart, backend, InvalidTable, None)
    ensures FindTable(tables, routeId).Some? && |cart| == 0 ==>
              r == CheckoutResult(cart, backend, EmptyCart, None)
    ensures r.notice == OrderPlaced <==>
              FindTable(tables, routeId).Some? && |cart| > 0 && insert.Inserted? && itemsInserted
    ensures FindTable(tables, routeId).Some? && |cart| > 0 && !(insert.Inserted? && itemsInserted) ==>
              r.notice == OrderFailed
    ensures r.notice == OrderFailed ==> r.cart == cart && r.navigateTo.None?
    ensures FindTable(tables, routeId).Some? && |cart| > 0 ==>
              r.backend == Orders.PlaceOrder(backend, Orders.OrderRequest(FindTable(tables, routeId).value.id, cart,
                                                                          Cart.TotalPrice(cart), Some(customerNote)),
                                             insert, itemsInserted, notifyDelivered, now).backend
    ensures r.notice == OrderPlaced ==>
              && r.cart == []
              && routeId.Some?
              && r.navigateTo == Some(OrderPath(routeId.value, insert.id))
              && |r.backend.orders| == |backend.orders| + 1
              && r.backend.orders[..|backend.orders|] == backend.orders
              && r.backend.orders[|backend.orders|].id == insert.id
              && r.backend.orders[|backend.orders|].tableId == FindTable(tables, routeId).value.id
              && r.backend.orders[|backend.orders|].totalAmount == Cart.TotalPrice(cart)
              && r.backend.orders[|backend.orders|].customerNote == Some(customerNote)
              && r.backend.orders[|backend.orders|].status == Pending
              && r.backend.orderItems == backend.orderItems + Orders.OrderItemsFor(insert.id, cart)
  {
    match FindTable(tables, routeId)
    case None => CheckoutResult(cart, backend, InvalidTable, None)
    case Some(table) =>
      if |cart| == 0 then CheckoutResult(cart, backend, EmptyCart, None)
      else
        var req := Orders.OrderRequest(table.id, cart, Cart.TotalPrice(cart), Some(customerNote));
        var p := Orders.PlaceOrder(backend, req, insert, itemsInserted, notifyDelivered, now);
        match p.result
        case Ok(order) =>
          CheckoutResult(Cart.ClearCart(), p.backend, OrderPlaced, Some(OrderPath(routeId.value, order.id)))
        case Err(_) => CheckoutResult(cart, p.backend, OrderFailed, None)
  }

  /** Every order placed from the cart page is a consistent financial
      record: its total equals the sum of unit price times quantity over the
      items inserted with it, and there is one item per cart line. */
  lemma PlacedOrderMatchesItems(cart: seq<CartItem>, backend: Orders.Backend, tables: Option<seq<Table>>,
                                routeId: Option<string>, customerNote: string, id: string,
                                createdAt: string, notifyDelivered: bool, now: string)
    requires HandlePlaceOrder(cart, backend, tables, routeId, customerNote,
                              Orders.Inserted(id, createdAt), true, notifyDelivered, now).notice == OrderPlaced
    ensures var r := HandlePlaceOrder(cart, backend, tables, routeId, customerNote,
                                      Orders.Inserted(id, createdAt), true, notifyDelivered, now);
            var added := r.backend.orderItems[|backend.orderItems|..];
            && |added| == |cart|
            && Seqs.Sum(Orders.LineAmount, added) == r.backend.orders[|backend.orders|].totalAmount
  {
    var table := FindTable(tables, routeId).value;
    var req := Orders.OrderRequest(table.id, cart, Cart.TotalPrice(cart), Some(customerNote));
    Orders.PlacedItemsMatchTotal(backend, req, id, createdAt, notifyDelivered, now);
    var p := Orders.PlaceOrder(backend, req, Orders.Inserted(id, createdAt), true, notifyDelivered, now);
    assert p.backend.orderItems[|backend.orderItems|..] == Orders.OrderItemsFor(id, cart);
  }

  /** The worked example: two lines at 10.00 x 2 and 5.50 x 1 give an order
      of 25.50 whose two items captured the unit prices 10.00 and 5.50. */
  lemma TwoLineExample(m1: MenuItem, m2: MenuItem, tables: seq<Table>, routeId: string)
    requires m1.price == 1000 && m2.price == 550
    requires |tables| > 0 && tables[0].id == routeId
    ensures var cart := [CartItem(m1, "a", 2, Some("")), CartItem(m2, "b", 1, Some(""))];
            var r := HandlePlaceOrder(cart, Orders.Backend([], []), Some(tables), Some(routeId), "",
                                      Orders.Inserted("o", "c"), true, true, "n");
            && r.notice == OrderPlaced
            && r.backend.orders[0].totalAmount == 2550
            && |r.backend.orderItems| == 2
            && r.backend.orderItems[0].unitPrice == 1000
            && r.backend.orderItems[1].unitPrice == 550
  {
    var cart := [CartItem(m1, "a", 2, Some("")), CartItem(m2, "b", 1, Some(""))];
    assert Matches(tables[0], Some(routeId));
    assert Seqs.Sum(Cart.LineTotal, cart[1..]) == 550;
  }
}

=== FILE: common.dfy ===
/** Small value types shared by the whole model: optional values, results
    that carry either a value or an error, and JavaScript's Math.max. */
module Common {

  /** An optional value; stands for TypeScript's `T | undefined`. */
  datatype Option<+T> = None | Some(value: T) {

    /** The wrapped value, or `default` when there is none. */
    function GetOr(default: T): T {
      match this
      case Some(v) => v
      case None => default
    }
  }

  /** The outcome of an operation that may throw: a value or an error. */
  datatype Result<+T, +E> = Ok(value: T) | Err(error: E)

  /** Math.max on two integers. */
  function Max(a: int, b: int): (m: int)
    ensures m >= a && m >= b
    ensures m == a || m == b
  {
    if a >= b then a else b
  }
}

=== FILE: menu.dfy ===
/** The customer menu page (src/pages/MenuPage.tsx): the category filter,
    the add-to-cart button gated on availability, and the floating cart
    button. */
module Menu {
  import opened Common
  import opened Types
  import Seqs
  import Cart

  /** The sentinel category that selects every item. */
  const AllCategories: string := "all"

  /** The predicate `item.category_id === category`. */
  function InCategory(category: string): MenuItem -> bool {
    (m: MenuItem) => m.categoryId == category
  }

  /** The complement of `InCategory(category)`. */
  function NotInCategory(category: string): MenuItem -> bool {
    (m: MenuItem) => m.categoryId != category
  }

  /** `filteredItems`: every item for `all`, otherwise the items of the
      selected category. Availability plays no part: sold-out items are
      listed too. */
  function FilterMenu(items: seq<MenuItem>, active: string): (r: seq<MenuItem>)
    ensures active == AllCategories ==> r == items
    ensures active != AllCategories ==>
              forall i :: 0 <= i < |r| ==> r[i] in items && r[i].categoryId == active
    ensures active != AllCategories ==>
              forall i :: 0 <= i < |items| && items[i].categoryId == active ==> items[i] in r
    ensures active != AllCategories ==>
              forall m: MenuItem :: m.categoryId == active ==> multiset(r)[m] == multiset(items)[m]
  {
    if active == AllCategories then items
    else
      Seqs.FilterComplement(InCategory(active), NotInCategory(active), items);
      Seqs.Filter(InCategory(active), items)
  }

  /** The category filter keeps the menu's order: filtering a concatenation
      filters each part in place. */
  lemma FilterMenuKeepsOrder(a: seq<MenuItem>, b: seq<MenuItem>, active: string)
    ensures FilterMenu(a + b, active) == FilterMenu(a, active) + FilterMenu(b, active)
  {
    if active != AllCategories {
      Seqs.FilterConcat(InCategory(active), a, b);
    }
  }

  /** The add button is enabled only for available items. */
  predicate AddEnabled(m: MenuItem) {
    m.isAvailable
  }

  /** A click on an item's add button: `addToCart(item)` with its defaults
      when the button is enabled; a disabled button does nothing. */
  function ClickAdd(cart: seq<CartItem>, m: MenuItem, freshId: string): (r: seq<CartItem>)
    ensures !AddEnabled(m) ==> r == cart
    ensures AddEnabled(m) ==> |r| == |cart| + 1 && r[..|cart|] == cart
    ensures AddEnabled(m) ==> r[|cart|].item == m && r[|cart|].quantity == 1 && r[|cart|].notes == Some("")
    ensures AddEnabled(m) ==> r[|cart|].cartItemId == freshId
    ensures Cart.QuantitiesPositive(cart) ==> Cart.QuantitiesPositive(r)
  {
    if AddEnabled(m) then Cart.AddOne(cart, m, freshId) else cart
  }

  /** A run of add-button clicks, each with the line id it generates. */
  function ClickAll(cart: seq<CartItem>, clicks: seq<(MenuItem, string)>): seq<CartItem>
    decreases |clicks|
  {
    if |clicks| == 0 then cart else ClickAll(ClickAdd(cart, clicks[0].0, clicks[0].1), clicks[1..])
  }

  /** Every line added from the menu is for an available item. */
  lemma {:induction false} MenuAddsOnlyAvailable(cart: seq<CartItem>, clicks: seq<(MenuItem, string)>)
    requires forall i :: 0 <= i < |cart| ==> cart[i].item.isAvailable
    ensures forall i :: 0 <= i < |ClickAll(cart, clicks)| ==> ClickAll(cart, clicks)[i].item.isAvailable
    decreases |clicks|
  {
    if |clicks| > 0 {
      var next := ClickAdd(cart, clicks[0].0, clicks[0].1);
      assert forall i :: 0 <= i < |next| ==> next[i].item.isAvailable;
      MenuAddsOnlyAvailable(next, clicks[1..]);
    }
  }

  /** `totalItems > 0`: whether the floating cart button is shown. */
  predicate CartButtonVisible(cart: seq<CartItem>) {
    Cart.TotalItems(cart) > 0
  }

  /** In a cart whose quantities are all at least 1, the cart button is shown
      exactly when the cart has a line. */
  lemma CartButtonVisibleIffNonEmpty(cart: seq<CartItem>)
    requires Cart.QuantitiesPositive(cart)
    ensures CartButtonVisible(cart) <==> |cart| > 0
  {
    Cart.TotalItemsAtLeastLines(cart);
  }
}

=== FILE: order_board.dfy ===
/** The admin order board (src/pages/Admin/OrderList.tsx): the
    active/completed/all list filter, the status actions offered per order,
    and what pressing one of them writes. */
module OrderBoard {
  import opened Common
  import opened Types
  import Seqs
  import Orders

  datatype OrderFilter = ActiveView | CompletedView | AllView

  /** `['completed', 'cancelled'].includes(status)`. */
  predicate IsFinished(s: OrderStatus) {
    s == Completed || s == Cancelled
  }

  /** The predicate the board filters its list with. */
  function Shows(f: OrderFilter): Order -> bool {
    (o: Order) =>
      match f
      case ActiveView => !IsFinished(o.status)
      case CompletedView => IsFinished(o.status)
      case AllView => true
  }

  /** `filteredOrders`. */
  function FilterOrders(orders: seq<Order>, f: OrderFilter): (r: seq<Order>)
    ensures f == AllView ==> r == orders
    ensures f == ActiveView ==> forall i :: 0 <= i < |r| ==> r[i] in orders && !IsFinished(r[i].status)
    ensures f == ActiveView ==> forall i :: 0 <= i < |orders| && !IsFinished(orders[i].status) ==> orders[i] in r
    ensures f == CompletedView ==> forall i :: 0 <= i < |r| ==> r[i] in orders && IsFinished(r[i].status)
    ensures f == CompletedView ==> forall i :: 0 <= i < |orders| && IsFinished(orders[i].status) ==> orders[i] in r
  {
    if f == AllView then
      Seqs.FilterKeepsAll(Shows(f), orders);
      Seqs.Filter(Shows(f), orders)
    else
      Seqs.Filter(Shows(f), orders)
  }

  /** The active and completed views split the list: every order is in
      exactly one of them. */
  lemma ActiveCompletedPartition(orders: seq<Order>)
    ensures |FilterOrders(orders, ActiveView)| + |FilterOrders(orders, CompletedView)| == |orders|
    ensures multiset(FilterOrders(orders, ActiveView)) + multiset(FilterOrders(orders, CompletedView))
         == multiset(orders)
  {
    Seqs.FilterComplement(Shows(ActiveView), Shows(CompletedView), orders);
  }

  /** Each view keeps the relative order of the list: filtering a
      concatenation filters each part in place. */
  lemma FilterOrdersKeepsOrder(a: seq<Order>, b: seq<Order>, f: OrderFilter)
    ensures FilterOrders(a + b, f) == FilterOrders(a, f) + FilterOrders(b, f)
  {
    Seqs.FilterConcat(Shows(f), a, b);
  }

  /** The statuses whose buttons the board renders for an order, in render
      order: the forward step first, then cancel. */
  function OfferedActions(s: OrderStatus): (r: seq<OrderStatus>)
    ensures Cancelled in r <==> s == Pending || s == Preparing
    ensures |r| == 0 <==> IsFinished(s)
    ensures forall i :: 0 <= i < |r| ==> r[i] != s
    ensures forall i :: 0 <= i < |r| ==> r[i] == Cancelled || Rank(r[i]) == Rank(s) + 1
  {
    match s
    case Pending => [Preparing, Cancelled]
    case Preparing => [Ready, Cancelled]
    case Ready => [Completed]
    case Completed => []
    case Cancelled => []
  }

  /** The board offers a button moving an order from `from` to `to`. */
  predicate Offers(from: OrderStatus, to: OrderStatus) {
    to in OfferedActions(from)
  }

  /** The offered relation, status by status. */
  lemma OfferedByStatus(to: OrderStatus)
    ensures Offers(Pending, to) <==> to == Preparing || to == Cancelled
    ensures Offers(Preparing, to) <==> to == Ready || to == Cancelled
    ensures Offers(Ready, to) <==> to == Completed
    ensures !Offers(Completed, to) && !Offers(Cancelled, to)
  {
  }

  /** Progress along the lifecycle; both terminal statuses sit at the top. */
  function Rank(s: OrderStatus): nat {
    match s
    case Pending => 0
    case Preparing => 1
    case Ready => 2
    case Completed => 3
    case Cancelled => 3
  }

  /** Every offered step strictly raises the rank. */
  lemma OffersRaisesRank(from: OrderStatus, to: OrderStatus)
    requires Offers(from, to)
    ensures Rank(to) > Rank(from)
  {
  }

  /** A sequence of statuses each reachable from the previous by one offered
      button. */
  predicate IsOfferedRun(run: seq<OrderStatus>) {
    forall i :: 0 <= i < |run| - 1 ==> Offers(run[i], run[i + 1])
  }

  /** Along an offered run the rank climbs by at least one per step. */
  lemma {:induction false} OfferedRunClimbs(run: seq<OrderStatus>)
    requires |run| > 0 && IsOfferedRun(run)
    ensures Rank(run[|run| - 1]) >= Rank(run[0]) + |run| - 1
  {
    if |run| > 1 {
      var init := run[..|run| - 1];
      assert IsOfferedRun(init);
      OfferedRunClimbs(init);
      OffersRaisesRank(run[|run| - 2], run[|run| - 1]);
    }
  }

  /** The lifecycle has no cycles under the offered relation: a run never
      revisits a status, has at most four statuses, and stops at a terminal
      status. */
  lemma OfferedRunIsAcyclic(run: seq<OrderStatus>)
    requires IsOfferedRun(run)
    ensures |run| <= 4
    ensures forall i, j :: 0 <= i < j < |run| ==> run[i] != run[j]
    ensures forall i :: 0 <= i < |run| && IsFinished(run[i]) ==> i == |run| - 1
  {
    if |run| > 0 {
      OfferedRunClimbs(run);
    }
    forall i, j | 0 <= i < j < |run|
      ensures run[i] != run[j]
    {
      var sub := run[i..j + 1];
      assert IsOfferedRun(sub);
      OfferedRunClimbs(sub);
    }
    forall i | 0 <= i < |run| - 1
      ensures !IsFinished(run[i])
    {
      assert Offers(run[i], run[i + 1]);
    }
  }

  /** An offered run from `pending` to each status. */
  function RunFromPending(s: OrderStatus): (run: seq<OrderStatus>)
    ensures |run| > 0 && run[0] == Pending && run[|run| - 1] == s
    ensures IsOfferedRun(run)
  {
    match s
    case Pending => [Pending]
    case Preparing => [Pending, Preparing]
    case Ready => [Pending, Preparing, Ready]
    case Completed => [Pending, Preparing, Ready, Completed]
    case Cancelled => [Pending, Cancelled]
  }

  /** `handleStatusChange` behind a rendered button: the board decides which
      buttons exist from the status of its (possibly stale) copy `shown`,
      and a press writes the target unguarded. `None` means no such button.
      Buttons are rendered only for orders the current filter shows. The
      model ignores the filter and answers for the order's row wherever it
      is shown: only unfinished orders have buttons, the active and all views
      show every unfinished order, and the completed view shows none. */
  function PressAction(backend: Orders.Backend, shown: Order, target: OrderStatus, now: string,
                       writeOk: bool): (r: Option<Result<Orders.Backend, Orders.WriteError>>)
    ensures r.Some? <==> Offers(shown.status, target)
    ensures r.Some? ==> r.value == Orders.UpdateOrderStatus(backend, shown.id, target, now, writeOk)
  {
    if Offers(shown.status, target) then
      Some(Orders.UpdateOrderStatus(backend, shown.id, target, now, writeOk))
    else None
  }

  /** When the board's copy of an order is current, pressing a button moves
      that order along the offered relation. */
  lemma PressFollowsLifecycle(backend: Orders.Backend, i: nat, target: OrderStatus, now: string)
    requires i < |backend.orders|
    requires PressAction(backend, backend.orders[i], target, now, true).Some?
    ensures var after := PressAction(backend, backend.orders[i], target, now, true).value;
            after.Ok? && Offers(backend.orders[i].status, after.value.orders[i].status)
  {
  }

  /** When the board's copy is stale the lifecycle can be broken: an order
      another device already moved to `ready` is shown as `pending`, and
      its cancel button writes `cancelled` over `ready`. */
  lemma StaleViewCancelsReadyOrder()
    ensures var stored := Order("o1", "t1", Ready, 1000, None, "c", None);
            var shown := stored.(status := Pending);
            var backend := Orders.Backend([stored], []);
            var after := PressAction(backend, shown, Cancelled, "n", true);
            && after.Some? && after.value.Ok?
            && after.value.value.orders[0].status == Cancelled
            && !Offers(Ready, Cancelled)
  {
  }
}

=== FILE: orders.dfy ===
/** Order submission (`usePlaceOrder`) and the status write
    (`useUpdateOrderStatus`) of src/hooks/useOrders.ts. The backend is the
    pair of collections these writes touch; what each write returns (the
    generated id and creation time, success or failure) and whether the
    notification request went through are inputs; `notifyDelivered` is
    false only when `fetch` rejects, since an HTTP error response resolves
    it. */
module Orders {
  import opened Common
  import opened Types
  import Seqs
  import Cart

  /** The `orders` and `order_items` collections. */
  datatype Backend = Backend(orders: seq<Order>, orderItems: seq<OrderItem>)

  /** The arguments of the place-order mutation. */
  datatype OrderRequest = OrderRequest(
    tableId: string,
    cart: seq<CartItem>,
    totalAmount: int,
    customerNote: Option<string>)

  /** The backend's answer to the order insert. */
  datatype InsertOutcome = Inserted(id: string, createdAt: string) | InsertFailed

  datatype NotifyItem = NotifyItem(name: string, quantity: int, price: int, notes: Option<string>)

  /** The body posted to `{API_URL}/orders/notify`. */
  datatype Notification = Notification(
    orderId: string,
    tableNumber: string,
    totalAmount: int,
    customerNote: Option<string>,
    timestamp: string,
    items: seq<NotifyItem>)

  datatype PlaceError = OrderInsertFailed | ItemsInsertFailed

  /** Everything the mutation leaves behind: the backend after its writes,
      the notification it posted (if it got that far), whether it logged a
      delivery warning, and what it resolved or threw. */
  datatype Placement = Placement(
    backend: Backend,
    notification: Option<Notification>,
    warned: bool,
    result: Result<Order, PlaceError>)

  function ToOrderItem(orderId: string, line: CartItem): OrderItem {
    OrderItem(orderId, line.item.id, line.quantity, line.item.price, line.notes)
  }

  /** `cart.map(...)`: the `order_items` rows for the cart. */
  function OrderItemsFor(orderId: string, cart: seq<CartItem>): (r: seq<OrderItem>)
    ensures |r| == |cart|
    ensures forall i :: 0 <= i < |cart| ==>
              && r[i].orderId == orderId
              && r[i].menuItemId == cart[i].item.id
              && r[i].quantity == cart[i].quantity
              && r[i].unitPrice == cart[i].item.price
              && r[i].notes == cart[i].notes
  {
    if |cart| == 0 then [] else [ToOrderItem(orderId, cart[0])] + OrderItemsFor(orderId, cart[1..])
  }

  function LineAmount(oi: OrderItem): int { oi.unitPrice * oi.quantity }

  /** The order items carry the cart's prices: their amounts add up to the
      cart's total price. */
  lemma {:induction false} OrderItemsTotal(orderId: string, cart: seq<CartItem>)
    ensures Seqs.Sum(LineAmount, OrderItemsFor(orderId, cart)) == Cart.TotalPrice(cart)
  {
    if |cart| > 0 {
      OrderItemsTotal(orderId, cart[1..]);
      var r := OrderItemsFor(orderId, cart);
      assert r[1..] == OrderItemsFor(orderId, cart[1..]);
      assert Seqs.Sum(Cart.LineTotal, cart) == Cart.LineTotal(cart[0]) + Seqs.Sum(Cart.LineTotal, cart[1..]);
    }
  }

  function ToNotifyItem(line: CartItem): NotifyItem {
    NotifyItem(line.item.name, line.quantity, line.item.price, line.notes)
  }

  /** The `items` of the notification body, one per cart line. */
  function NotifyItemsFor(cart: seq<CartItem>): (r: seq<NotifyItem>)
    ensures |r| == |cart|
    ensures forall i :: 0 <= i < |cart| ==>
              && r[i].name == cart[i].item.name
              && r[i].quantity == cart[i].quantity
              && r[i].price == cart[i].item.price
              && r[i].notes == cart[i].notes
  {
    if |cart| == 0 then [] else [ToNotifyItem(cart[0])] + NotifyItemsFor(cart[1..])
  }

  /** The row the order insert creates. */
  function NewOrder(req: OrderRequest, id: string, createdAt: string): Order {
    Order(id, req.tableId, Pending, req.totalAmount, req.customerNote, createdAt, None)
  }

  /** `order.created_at || now`: an empty creation time falls back to now. */
  function NotifyTimestamp(createdAt: string, now: string): string {
    if createdAt != "" then createdAt else now
  }

  /** The place-order mutation: insert the order, then its items, then post
      the notification, whose failure is only logged. */
  function PlaceOrder(backend: Backend, req: OrderRequest, insert: InsertOutcome,
                      itemsInserted: bool, notifyDelivered: bool, now: string): (p: Placement)
    ensures p.result.Ok? <==> insert.Inserted? && itemsInserted
    ensures insert.InsertFailed? ==> p.result == Err(OrderInsertFailed) && p.backend == backend
    ensures p.notification.Some? <==> p.result.Ok?
    ensures p.warned <==> p.result.Ok? && !notifyDelivered
    ensures insert.Inserted? ==>
              && |p.backend.orders| == |backend.orders| + 1
              && p.backend.orders[..|backend.orders|] == backend.orders
              && p.backend.orders[|backend.orders|].id == insert.id
              && p.backend.orders[|backend.orders|].status == Pending
              && p.backend.orders[|backend.orders|].tableId == req.tableId
              && p.backend.orders[|backend.orders|].totalAmount == req.totalAmount
              && p.backend.orders[|backend.orders|].customerNote == req.customerNote
    ensures insert.Inserted? && !itemsInserted ==>
              p.result == Err(ItemsInsertFailed) && p.backend.orderItems == backend.orderItems
    ensures p.result.Ok? ==>
              && p.result.value == p.backend.orders[|backend.orders|]
              && p.backend.orderItems == backend.orderItems + OrderItemsFor(insert.id, req.cart)
    ensures p.notification.Some? ==>
              && p.notification.value.orderId == insert.id
              && p.notification.value.tableNumber == req.tableId
              && p.notification.value.totalAmount == req.totalAmount
              && p.notification.value.customerNote == req.customerNote
              && p.notification.value.items == NotifyItemsFor(req.cart)
  {
    match insert
    case InsertFailed =>
      Placement(backend, None, false, Err(OrderInsertFailed))
    case Inserted(id, createdAt) =>
      var order := NewOrder(req, id, createdAt);
      var withOrder := backend.(orders := backend.orders + [order]);
      if !itemsInserted then
        Placement(withOrder, None, false, Err(ItemsInsertFailed))
      else
        var withItems := withOrder.(orderItems := backend.orderItems + OrderItemsFor(id, req.cart));
        var body := Notification(id, req.tableId, req.totalAmount, req.customerNote,
                                 NotifyTimestamp(createdAt, now), NotifyItemsFor(req.cart));
        Placement(withItems, Some(body), !notifyDelivered, Ok(order))
  }

  /** A failed notification changes nothing but the logged warning: the
      backend, the posted body and the resolved order are the same. */
  lemma NotifyFailureSwallowed(backend: Backend, req: OrderRequest, insert: InsertOutcome,
                               itemsInserted: bool, now: string)
    ensures PlaceOrder(backend, req, insert, itemsInserted, false, now).result
         == PlaceOrder(backend, req, insert, itemsInserted, true, now).result
    ensures PlaceOrder(backend, req, insert, itemsInserted, false, now).backend
         == PlaceOrder(backend, req, insert, itemsInserted, true, now).backend
    ensures PlaceOrder(backend, req, insert, itemsInserted, false, now).notification
         == PlaceOrder(backend, req, insert, itemsInserted, true, now).notification
  {
  }

  /** When the item insert fails after the order insert succeeded, the call
      fails yet the new order stays in the backend with no items: nothing is
      rolled back. */
  lemma ItemsFailureLeavesOrphan(backend: Backend, req: OrderRequest, id: string, createdAt: string,
                                 notifyDelivered: bool, now: string)
    requires forall i :: 0 <= i < |backend.orderItems| ==> backend.orderItems[i].orderId != id
    ensures var p := PlaceOrder(backend, req, Inserted(id, createdAt), false, notifyDelivered, now);
            && p.result.Err?
            && (exists o :: o in p.backend.orders && o.id == id && o.status == Pending)
            && forall i :: 0 <= i < |p.backend.orderItems| ==> p.backend.orderItems[i].orderId != id
  {
  }

  /** On success the new order's total agrees with its items exactly when
      the requested total is the cart's total price. */
  lemma PlacedItemsMatchTotal(backend: Backend, req: OrderRequest, id: string, createdAt: string,
                              notifyDelivered: bool, now: string)
    ensures var p := PlaceOrder(backend, req, Inserted(id, createdAt), true, notifyDelivered, now);
            var added := p.backend.orderItems[|backend.orderItems|..];
            (Seqs.Sum(LineAmount, added) == p.result.value.totalAmount <==>
              req.totalAmount == Cart.TotalPrice(req.cart))
  {
    var p := PlaceOrder(backend, req, Inserted(id, createdAt), true, notifyDelivered, now);
    assert p.backend.orderItems[|backend.orderItems|..] == OrderItemsFor(id, req.cart);
    OrderItemsTotal(id, req.cart);
  }

  datatype WriteError = UpdateFailed

  /** `.update({status, updated_at}).eq('id', orderId)` on the order rows:
      every row with that id gets the status and timestamp, whatever its
      current status; every other row is untouched. */
  function WriteStatus(orders: seq<Order>, orderId: string, status: OrderStatus, now: string)
    : (r: seq<Order>)
    ensures |r| == |orders|
    ensures forall i :: 0 <= i < |orders| && orders[i].id != orderId ==> r[i] == orders[i]
    ensures forall i :: 0 <= i < |orders| && orders[i].id == orderId ==>
              && r[i].status == status
              && r[i].updatedAt == Some(now)
              && r[i] == orders[i].(status := r[i].status, updatedAt := r[i].updatedAt)
  {
    seq(|orders|, i requires 0 <= i < |orders| =>
      if orders[i].id == orderId then orders[i].(status := status, updatedAt := Some(now))
      else orders[i])
  }

  /** `useUpdateOrderStatus`: an unguarded overwrite of the status. The only
      way it fails is the backend reporting an error. */
  function UpdateOrderStatus(backend: Backend, orderId: string, status: OrderStatus, now: string,
                             writeOk: bool): (r: Result<Backend, WriteError>)
    ensures r.Ok? <==> writeOk
    ensures r.Ok? ==> r.value.orderItems == backend.orderItems
    ensures r.Ok? ==> r.value.orders == WriteStatus(backend.orders, orderId, status, now)
  {
    if writeOk then Ok(backend.(orders := WriteStatus(backend.orders, orderId, status, now)))
    else Err(UpdateFailed)
  }

  /** The write accepts any target from any current status, including moving
      a completed order back to preparing. */
  lemma UpdateIgnoresCurrentStatus(backend: Backend, i: nat, status: OrderStatus, now: string)
    requires i < |backend.orders|
    ensures var r := UpdateOrderStatus(backend, backend.orders[i].id, status, now, true);
            r.Ok? && r.value.orders[i].status == status
  {
  }

  /** Writing the same status with the same timestamp twice is the same as
      writing it once. */
  lemma WriteStatusIdempotent(orders: seq<Order>, orderId: string, status: OrderStatus, now: string)
    ensures WriteStatus(WriteStatus(orders, orderId, status, now), orderId, status, now)
         == WriteStatus(orders, orderId, status, now)
  {
  }
}

=== FILE: schemas.dfy ===
/** The form validators `categorySchema` and `menuItemSchema`
    (src/types/index.ts). A parse either yields the validated record or the
    list of issues, one per failed check, in the order the schema declares
    its fields and checks. Type mismatches (a number where a string is
    expected, and so on) cannot arise here because the inputs are typed. */
module Schemas {
  import opened Common

  /** A validation issue: the offending field and its message. */
  datatype Issue = Issue(path: string, message: string)

  const NameRequired := Issue("name", "Name is required")
  const CategoryRequired := Issue("category_id", "Category is required")
  const PriceNegative := Issue("price", "Price must be non-negative")
  const SortOrderNotInteger := Issue("sort_order", "Expected integer, received float")
  const SortOrderNegative := Issue("sort_order", "Sort order must be 0 or positive")

  predicate IsInteger(x: real) {
    x == x.Floor as real
  }

  /** The category form as submitted; `sortOrder` is any number. */
  datatype CategoryInput = CategoryInput(name: string, sortOrder: real)

  /** A validated category. */
  datatype CategoryData = CategoryData(name: string, sortOrder: int)

  function CategoryIssues(input: CategoryInput): seq<Issue>
  {
    (if |input.name| >= 1 then [] else [NameRequired])
    + (if IsInteger(input.sortOrder) then [] else [SortOrderNotInteger])
    + (if input.sortOrder >= 0.0 then [] else [SortOrderNegative])
  }

  /** `categorySchema.safeParse`. */
  function ParseCategory(input: CategoryInput): (r: Result<CategoryData, seq<Issue>>)
    ensures r.Ok? <==> input.name != "" && IsInteger(input.sortOrder) && input.sortOrder >= 0.0
    ensures r.Ok? ==> r.value.name == input.name && r.value.sortOrder as real == input.sortOrder
    ensures r.Ok? ==> r.value.sortOrder >= 0
    ensures r.Err? ==> (NameRequired in r.error <==> input.name == "")
    ensures r.Err? ==> (SortOrderNotInteger in r.error <==> !IsInteger(input.sortOrder))
    ensures r.Err? ==> (SortOrderNegative in r.error <==> input.sortOrder < 0.0)
  {
    var issues := CategoryIssues(input);
    if |issues| == 0 then Ok(CategoryData(input.name, input.sortOrder.Floor))
    else Err(issues)
  }

  function CategoryToInput(c: CategoryData): CategoryInput {
    CategoryInput(c.name, c.sortOrder as real)
  }

  /** Validation is idempotent: what the schema accepted it accepts again
      unchanged. */
  lemma ParseCategoryIdempotent(input: CategoryInput)
    requires ParseCategory(input).Ok?
    ensures ParseCategory(CategoryToInput(ParseCategory(input).value)) == ParseCategory(input)
  {
  }

  /** The menu-item form as submitted: absent optional fields are `None`. */
  datatype MenuItemInput = MenuItemInput(
    name: string,
    categoryId: string,
    description: Option<string>,
    price: int,
    imageUrl: Option<string>,
    isAvailable: Option<bool>)

  /** A validated menu item; availability has received its default. */
  datatype MenuItemData = MenuItemData(
    name: string,
    categoryId: string,
    description: Option<string>,
    price: int,
    imageUrl: Option<string>,
    isAvailable: bool)

  function MenuItemIssues(input: MenuItemInput): seq<Issue>
  {
    (if |input.name| >= 1 then [] else [NameRequired])
    + (if |input.categoryId| >= 1 then [] else [CategoryRequired])
    + (if input.price >= 0 then [] else [PriceNegative])
  }

  /** `menuItemSchema.safeParse`. */
  function ParseMenuItem(input: MenuItemInput): (r: Result<MenuItemData, seq<Issue>>)
    ensures r.Ok? <==> input.name != "" && input.categoryId != "" && input.price >= 0
    ensures r.Ok? ==> && r.value.name == input.name
                      && r.value.categoryId == input.categoryId
                      && r.value.price == input.price
                      && r.value.description == input.description
                      && r.value.imageUrl == input.imageUrl
    ensures r.Ok? && input.isAvailable.None? ==> r.value.isAvailable
    ensures r.Ok? && input.isAvailable.Some? ==> r.value.isAvailable == input.isAvailable.value
    ensures r.Err? ==> (NameRequired in r.error <==> input.name == "")
    ensures r.Err? ==> (CategoryRequired in r.error <==> input.categoryId == "")
    ensures r.Err? ==> (PriceNegative in r.error <==> input.price < 0)
  {
    var issues := MenuItemIssues(input);
    if |issues| == 0 then
      Ok(MenuItemData(input.name, input.categoryId, input.description, input.price,
                      input.imageUrl, input.isAvailable.GetOr(true)))
    else Err(issues)
  }

  function MenuItemToInput(m: MenuItemData): MenuItemInput {
    MenuItemInput(m.name, m.categoryId, m.description, m.price, m.imageUrl, Some(m.isAvailable))
  }

  /** Validation is idempotent: what the schema accepted it accepts again
      unchanged. */
  lemma ParseMenuItemIdempotent(input: MenuItemInput)
    requires ParseMenuItem(input).Ok?
    ensures ParseMenuItem(MenuItemToInput(ParseMenuItem(input).value)) == ParseMenuItem(input)
  {
  }
}

=== FILE: seqs.dfy ===
/** Array.prototype.filter and Array.prototype.reduce over sequences, with
    the facts about them that the rest of the model relies on. */
module Seqs {

  /** The elements of `s` that satisfy `p`, in their original order. */
  function Filter<T>(p: T -> bool, s: seq<T>): (r: seq<T>)
    ensures |r| <= |s|
    ensures forall i :: 0 <= i < |r| ==> r[i] in s && p(r[i])
    ensures forall i :: 0 <= i < |s| && p(s[i]) ==> s[i] in r
  {
    if |s| == 0 then []
    else if p(s[0]) then [s[0]] + Filter(p, s[1..])
    else Filter(p, s[1..])
  }

  /** Filtering distributes over concatenation, so the filter keeps the
      relative order of the elements it retains. */
  lemma {:induction false} FilterConcat<T>(p: T -> bool, a: seq<T>, b: seq<T>)
    ensures Filter(p, a + b) == Filter(p, a) + Filter(p, b)
  {
    if |a| == 0 {
      assert a + b == b;
    } else {
      assert (a + b)[0] == a[0];
      assert (a + b)[1..] == a[1..] + b;
      FilterConcat(p, a[1..], b);
    }
  }

  /** A filter that every element passes returns the sequence unchanged. */
  lemma {:induction false} FilterKeepsAll<T>(p: T -> bool, s: seq<T>)
    requires forall i :: 0 <= i < |s| ==> p(s[i])
    ensures Filter(p, s) == s
  {
    if |s| > 0 {
      FilterKeepsAll(p, s[1..]);
    }
  }

  /** Two complementary filters split a sequence: together they keep every
      element exactly once. */
  lemma {:induction false} FilterComplement<T>(p: T -> bool, q: T -> bool, s: seq<T>)
    requires forall x :: q(x) == !p(x)
    ensures |Filter(p, s)| + |Filter(q, s)| == |s|
    ensures multiset(Filter(p, s)) + multiset(Filter(q, s)) == multiset(s)
  {
    if |s| > 0 {
      FilterComplement(p, q, s[1..]);
      assert s == [s[0]] + s[1..];
    }
  }

  /** The reference sum of `f` over `s`. */
  function Sum<T>(f: T -> int, s: seq<T>): int
  {
    if |s| == 0 then 0 else f(s[0]) + Sum(f, s[1..])
  }

  /** `reduce((acc, x) => acc + f(x), acc)`: a left fold with an accumulator. */
  function FoldSum<T>(f: T -> int, acc: int, s: seq<T>): int
    decreases s
  {
    if |s| == 0 then acc else FoldSum(f, acc + f(s[0]), s[1..])
  }

  /** The left fold computes the reference sum, offset by its seed. */
  lemma {:induction false} FoldSumIsSum<T>(f: T -> int, acc: int, s: seq<T>)
    ensures FoldSum(f, acc, s) == acc + Sum(f, s)
    decreases s
  {
    if |s| > 0 {
      FoldSumIsSum(f, acc + f(s[0]), s[1..]);
    }
  }

  lemma {:induction false} SumConcat<T>(f: T -> int, a: seq<T>, b: seq<T>)
    ensures Sum(f, a + b) == Sum(f, a) + Sum(f, b)
  {
    if |a| == 0 {
      assert a + b == b;
    } else {
      assert (a + b)[0] == a[0];
      assert (a + b)[1..] == a[1..] + b;
      SumConcat(f, a[1..], b);
    }
  }

  /** The sum over a sequence is the sum over the part a filter keeps plus
      the sum over the part its complement keeps. */
  lemma {:induction false} SumComplement<T>(f: T -> int, p: T -> bool, q: T -> bool, s: seq<T>)
    requires forall x :: q(x) == !p(x)
    ensures Sum(f, s) == Sum(f, Filter(p, s)) + Sum(f, Filter(q, s))
  {
    if |s| > 0 {
      SumComplement(f, p, q, s[1..]);
      if p(s[0]) {
        assert Filter(p, s) == [s[0]] + Filter(p, s[1..]);
        assert Sum(f, Filter(p, s)) == f(s[0]) + Sum(f, Filter(p, s[1..]));
      } else {
        assert Filter(q, s) == [s[0]] + Filter(q, s[1..]);
        assert Sum(f, Filter(q, s)) == f(s[0]) + Sum(f, Filter(q, s[1..]));
      }
    }
  }

  /** When every term is at least 1, the sum is at least the length. */
  lemma {:induction false} SumAtLeastLength<T>(f: T -> int, s: seq<T>)
    requires forall i :: 0 <= i < |s| ==> f(s[i]) >= 1
    ensures Sum(f, s) >= |s|
  {
    if |s| > 0 {
      SumAtLeastLength(f, s[1..]);
    }
  }
}

=== FILE: types.dfy ===
/** The record shapes of the ordering app (src/types/index.ts). Money is in
    integer cents; timestamps and ids are opaque strings. */
module Types {
  import opened Common

  /** The five states an order can be in. */
  datatype OrderStatus = Pending | Preparing | Ready | Completed | Cancelled

  /** The string stored in the `status` column for each state. */
  function StatusName(s: OrderStatus): string
  {
    match s
    case Pending => "pending"
    case Preparing => "preparing"
    case Ready => "ready"
    case Completed => "completed"
    case Cancelled => "cancelled"
  }

  /** The value set of the `OrderStatus` union: exactly the five names are
      statuses. The app itself never validates a stored status; it casts. */
  function ParseStatus(t: string): (r: Option<OrderStatus>)
    ensures r.Some? ==> StatusName(r.value) == t
    ensures r.Some? <==> t in {"pending", "preparing", "ready", "completed", "cancelled"}
  {
    if t == "pending" then Some(Pending)
    else if t == "preparing" then Some(Preparing)
    else if t == "ready" then Some(Ready)
    else if t == "completed" then Some(Completed)
    else if t == "cancelled" then Some(Cancelled)
    else None
  }

  /** Every status survives a trip through its stored name, and distinct
      statuses have distinct names. */
  lemma StatusNameRoundTrip(s: OrderStatus, s': OrderStatus)
    ensures ParseStatus(StatusName(s)) == Some(s)
    ensures StatusName(s) == StatusName(s') ==> s == s'
  {
  }

  datatype Category = Category(id: string, name: string, sortOrder: int)

  datatype MenuItem = MenuItem(
    id: string,
    categoryId: string,
    name: string,
    description: string,
    price: int,
    imageUrl: string,
    isAvailable: bool)

  /** A cart line: a snapshot of a menu item spread into a new record with a
      local line id, a quantity and optional notes. */
  datatype CartItem = CartItem(
    item: MenuItem,
    cartItemId: string,
    quantity: int,
    notes: Option<string>)

  /** An order row. `updatedAt` is the timestamp the client last wrote with a
      status change; the insert does not send that column. */
  datatype Order = Order(
    id: string,
    tableId: string,
    status: OrderStatus,
    totalAmount: int,
    customerNote: Option<string>,
    createdAt: string,
    updatedAt: Option<string>)

  /** An `order_items` row as the client inserts it. */
  datatype OrderItem = OrderItem(
    orderId: string,
    menuItemId: string,
    quantity: int,
    unitPrice: int,
    notes: Option<string>)

  datatype Table = Table(id: string, tableNumber: string)
}
